=== FILE: README.md ===
# OPC UA command-line client: a Dafny model of its session and navigation core

The client connects to an OPC UA server and lets a user walk the server's
address space like a file system: `ls` lists the children of the current
node, `cd <name>` and `cd ..` move down and up a breadcrumb path, and
`read [<name>]` shows every attribute of a node. This project models three
parts of it:

- **The controller**, module `OpcController`. It holds the
  connection flags. It plans a node's attribute read: the 27 listed attribute
  ids, filtered by what the node supports, in list order. It post-processes
  the results: a NodeClass value becomes the class name, and a DataType value
  becomes the display name of the type node. It also turns browse references
  into attribute-complete node records. The attribute table is module
  `AttributeTable`. Its ids are those of OPC UA Part 6, Annex A.1.
- **The browser**, module `OpcBrowser`. Its state is the
  breadcrumb path, the selected node and the current listing. `Init`,
  `NavigateTo`, `NavigateBack` and `Update` are pure transitions. Each returns
  the reported outcome and the state the object is left in.
- **The command loop**, module `App`. It splits a line at the first
  space and routes the command by connection state. It models the effect of
  each command, `read`'s choice of target, and the uncaught exceptions that
  end the program (`Crash`). Module `Rendering` holds `ObjectToString` and the
  capped width of the value column.

The node records mirror `NodeDTO` as immutable datatypes (module
`NodeModel`). The server is an oracle: a `Space` maps each node id the server
accepts to its display name, class, supported attributes, attribute values
and forward hierarchical references. The browser reaches the server only
through the controller's `ReadNode` and `Browse`. It sees them as a `Server`
record of two functions, and `OpcBrowser.ControllerServer(space)` gives the
controller's own pair. Connecting is an oracle too: a map from requested address to the
endpoint URL of the session created for it.

Notes on the code's behaviour that the model keeps:

- `Update` stores the re-read node before its browse can fail. A failed
  refresh can therefore leave a new selected node next to the old listing
  (`OpcBrowser.UpdateBrowseFailure`). The other navigations browse before they
  assign anything.
- Disconnecting faults only when no session was ever created. A disconnect
  disposes the session but keeps the reference to it.
- No call checks for a missing session. Only the command loop's routing keeps
  the calls from happening while disconnected (`App.RunNeverMissesSession`).
- A connect whose browser initialisation then fails leaves the client
  connected with an empty browser. The next `ls` then dereferences the unset
  selected node (`App.FailedInitThenList`).
- The command loop ignores the boolean that the navigations return. A `cd` to
  a missing name prints nothing.

## Model

| member | source | states |
|---|---|---|
| AttributeTable.AttributeName | OpcUaCLI/OpcController.cs:48-107 | an id gets a proper label exactly when it is one of the standard ids 1 to 27, and "Unknown" otherwise |
| AttributeTable.AttributeIdsDistinct | OpcUaCLI/OpcController.cs:18-46 | the request list has 27 entries, no id twice, and covers exactly the standard ids 1 to 27 |
| AttributeTable.AttributeNameTotal | OpcUaCLI/OpcController.cs:48-107 | an id is labelled "Unknown" exactly when it is not one of the listed ids |
| AttributeTable.AttributeNamesDistinct | OpcUaCLI/OpcController.cs:48-107 | no two listed ids share a label |
| AttributeTable.AttributeIdByName | OpcUaCLI/OpcController.cs:48-107 | the inverse lookup finds an id exactly when some listed id carries the label, and the id it finds carries it |
| AttributeTable.AttributeNameRoundTrip | OpcUaCLI/OpcController.cs:48-107 | looking up the label of a listed id gives back that id |
| NodeModel.ClassOfValue | OpcUaCLI/OpcController.cs:162-163 | an integer denotes a node class exactly when it is that class's enumeration value |
| OpcController.Connect | OpcUaCLI/OpcController.cs:128-134 | on success the controller is connected and reports the session's endpoint URL as host; on failure nothing changes |
| OpcController.Disconnect | OpcUaCLI/OpcController.cs:136-139 | without a session it faults and changes nothing; with one it disposes it, clears the connected flag and keeps the host |
| OpcController.ConnectThenDisconnect | OpcUaCLI/OpcController.cs:128-139 | a disconnect after a successful connect succeeds and leaves the client disconnected |
| OpcController.ReadRequest | OpcUaCLI/OpcController.cs:145-152 | the request holds exactly the listed ids the node supports, each once, in list order |
| OpcController.ClassLabel | OpcUaCLI/OpcController.cs:162-163 | a value that is some class's enumeration value becomes that class's name; a value no class has becomes its decimal numeral |
| OpcController.ResolveAll | OpcUaCLI/OpcController.cs:157-171 | result i carries request id i, its label and its post-processed value; the first failing post-processing step aborts the batch with that step's error |
| OpcController.ReadNodeAttributes | OpcUaCLI/OpcController.cs:141-174 | an unknown node fails with UnknownNode; a known node's batch is its planned request post-processed in request order (its contents are given by ReadAttributesExactlySupported, NodeClassNamed, DataTypeNamed, OtherValuesUnchanged and ReadAttributesFailure) |
| OpcController.ReadAttributesExactlySupported | OpcUaCLI/OpcController.cs:145-170 | a successful read returns exactly the supported listed attributes, each once, in list order, none labelled "Unknown" |
| OpcController.NodeClassNamed | OpcUaCLI/OpcController.cs:162-163 | a NodeClass attribute holding a class's value reads as that class's name |
| OpcController.DataTypeNamed | OpcUaCLI/OpcController.cs:164-168 | a DataType attribute referring to node t reads as t's display name, never as the reference itself |
| OpcController.OtherValuesUnchanged | OpcUaCLI/OpcController.cs:157-171 | every other attribute reads as the value the server returned |
| OpcController.ReadAttributesFailure | OpcUaCLI/OpcController.cs:141-174 | a read fails only for an unknown node, or for a NodeClass or DataType value that cannot be post-processed |
| OpcController.ReadNode | OpcUaCLI/OpcController.cs:176-185 | a node read succeeds exactly when the node and its attribute batch can be read, and carries the node's own id, name and class |
| OpcController.ReadNodeKeepsId | OpcUaCLI/OpcController.cs:176-185 | on a server that reports each node under the id it is read by, the node read carries the requested id |
| OpcController.BrowseMaskAdmitsAll | OpcUaCLI/OpcController.cs:200 | the browse class mask is 0xFF and filters out no class; the Unspecified class of a remote target whose class is unknown has no bit but is never filtered (OPC UA Part 4, section 5.8.2) |
| OpcController.BrowseReferences | OpcUaCLI/OpcController.cs:200 | the server answers a browse of a known node with the references whose target class passes the mask, in server order, each as often as the node holds it; an unknown node fails with UnknownNode |
| OpcController.Materialize | OpcUaCLI/OpcController.cs:203-205 | record i carries reference i's id, name and class with the target's full attribute batch; it fails exactly when one target's read fails |
| OpcController.Browse | OpcUaCLI/OpcController.cs:199-208 | an unknown node fails with UnknownNode; otherwise the result is the materialised references the mask passes (their contents are given by BrowseOnePerReference, BrowseFailure and BrowseLeaf), and any failure is a server error |
| OpcController.BrowseOnePerReference | OpcUaCLI/OpcController.cs:199-208 | a successful browse yields one attribute-complete record per reference, whatever the target's class, in server order |
| OpcController.BrowseFailure | OpcUaCLI/OpcController.cs:199-208 | a browse of a known node fails exactly when the attribute read of one of its children fails |
| OpcController.BrowseLeaf | OpcUaCLI/OpcController.cs:199-208 | a node without children browses to an empty list, not an error |
| OpcBrowser.FirstNamed | OpcUaCLI/OpcBrowser.cs:38 | finds the first listing entry with the given name, or reports that no entry has it |
| OpcBrowser.Init | OpcUaCLI/OpcBrowser.cs:26-35 | it succeeds exactly when the root read and its browse succeed, and otherwise fails with the failing call's error and leaves the browser as it was; success appends the root, selects it and lists its children |
| OpcBrowser.InitFresh | OpcUaCLI/OpcBrowser.cs:20-35 | on a fresh browser the root becomes the only path entry, selected, with its children listed |
| OpcBrowser.NavigateTo | OpcUaCLI/OpcBrowser.cs:37-48 | an absent name is refused with no change; for a listed name it moves exactly when the browse of the first entry with that name succeeds, and otherwise fails with the browse's error and changes nothing; a move pushes and selects that entry and lists its children |
| OpcBrowser.NavigateToAbsent | OpcUaCLI/OpcBrowser.cs:37-40 | a name that no listed child carries gives false and changes nothing |
| OpcBrowser.NavigateToPresent | OpcUaCLI/OpcBrowser.cs:38-47 | a listed name is never refused, and a move grows the path by one entry, the first child with that name |
| OpcBrowser.NavigateBack | OpcUaCLI/OpcBrowser.cs:50-61 | at the root it is refused with no change; below it, it moves exactly when the browse of the parent succeeds, and otherwise fails with the browse's error and changes nothing; a move drops the last entry, selects the parent and lists its children |
| OpcBrowser.NavigateBackPopsTop | OpcUaCLI/OpcBrowser.cs:54-60 | a move back removes only the top entry, never the root, and selects the new top |
| OpcBrowser.NavigateToThenBack | OpcUaCLI/OpcBrowser.cs:37-61 | entering a child and going back restores the path, and the listing is the parent's children fetched again |
| OpcBrowser.Update | OpcUaCLI/OpcBrowser.cs:63-66 | a refresh never touches the path; with nothing selected it fails with NoSelectedNode; a failed re-read fails with its error and changes nothing; after a successful re-read it passes exactly when the browse of the re-read node succeeds, and then selects that node with its children listed |
| OpcBrowser.UpdateBrowseFailure | OpcUaCLI/OpcBrowser.cs:64-65 | when the browse after the re-read fails, the re-read node is already stored and the old listing remains |
| OpcBrowser.TransitionsPreserveValid | OpcUaCLI/OpcBrowser.cs:37-66 | every transition keeps the path non-empty with the selected node as its top; a refresh needs the server to keep ids |
| OpcBrowser.Descend | OpcUaCLI/OpcBrowser.cs:37-48 | n successful steps down grow the path by n entries and keep its prefix |
| OpcBrowser.Ascend | OpcUaCLI/OpcBrowser.cs:50-61 | n successful steps up drop exactly the last n entries |
| OpcBrowser.DescendAscendRestoresPath | OpcUaCLI/OpcBrowser.cs:37-61 | going down any number of levels and back up as many restores the path |
| Rendering.Render | OpcUaCLI/App.cs:193-212 | a value has no string form exactly when it is null, possibly wrapped in extension objects; an array's form is bracketed |
| Rendering.RenderUnwraps | OpcUaCLI/App.cs:203-205 | extension objects render as their body, however deeply nested |
| Rendering.ArrayRenderingRecoversItems | OpcUaCLI/App.cs:194-201 | an array renders between brackets, and if it is non-empty and no element's rendering has a comma, splitting the inside at commas gives back the element renderings |
| Rendering.MaxRenderLength | OpcUaCLI/App.cs:181 | the longest rendering bounds every attribute's rendering and is attained by one of them |
| Rendering.ValueColumnWidth | OpcUaCLI/App.cs:180-184 | the value column is 5 wider than the longest rendering but never wider than 50, and is 50 only when some rendering plus 5 reaches 50; an empty attribute list is an error |
| App.SplitLine | OpcUaCLI/App.cs:42-44 | the command has no space; with no space the command is the whole line, otherwise command, one space and arguments make up the line |
| App.SplitLineUnique | OpcUaCLI/App.cs:42-44 | any line made of a space-free command, a space and a remainder splits into exactly those |
| App.Classify | OpcUaCLI/App.cs:46-145 | each command word is routed to its own command, and only in the state that handles it: help, exit and the empty command in both states, connect only while disconnected, ls, cd, read, write and disconnect only while connected; a cd target is never empty or ".." |
| App.DisconnectedCommands | OpcUaCLI/App.cs:62-86 | while disconnected only the empty command, help, exit and connect are recognised |
| App.StateIndependentCommands | OpcUaCLI/App.cs:46-65 | disconnect is never routed while disconnected; help and exit are routed alike in both states |
| App.CdRouting | OpcUaCLI/App.cs:95-110 | "cd .." goes up before the general cd case; cd with no or an empty argument only reports missing parameters |
| App.ReadTarget | OpcUaCLI/App.cs:112-124 | without a name the target is the selected node; with one it is the first listed child with that name, or none if no child has it |
| App.ConnectAndInit | OpcUaCLI/App.cs:69-81 | a failed connect changes nothing; after a connect the browser is a fresh one initialised against the server |
| App.Execute | OpcUaCLI/App.cs:54-145 | connect runs the connect-and-initialise sequence and keeps its resulting state; ls refreshes the browser and lists the refreshed node's children; cd .. navigates back and cd <name> navigates to the name, keeping the browser each leaves; only exit, disconnect, ls, cd and read can end the program, and never with end of input against a server that raises only server errors; disconnect without a session ends the program with NoSession and otherwise disposes the session and keeps the host, with no other change; only exit stops the loop; only connect, exit and disconnect touch the controller, and exit and disconnect leave it disconnected; only connect, ls and cd touch the browser |
| App.Step | OpcUaCLI/App.cs:36-65 | a turn ends in end of input exactly when the line is missing, given a server that raises only server errors; only the word exit stops the loop; while disconnected a turn never ends the program, and changes nothing unless the word is exit or connect |
| App.Start | OpcUaCLI/App.cs:21-31 | start-up never ends in an exception; without a host it starts disconnected; it stops exactly when it reports a connect error; otherwise a host leaves it connected with a valid browser |
| App.Run | OpcUaCLI/App.cs:34-66 | a stopped loop reads nothing; a run stops exactly when, short of an exception, it is given a line whose command is exit; a run that ends in end of input, against a server raising only server errors, was given a missing line; a run that ends neither stopped nor in an exception met no missing line |
| App.RunAppend | OpcUaCLI/App.cs:36-66 | running two batches of lines one after the other is the same as running them together, with the state carried from the first into the second |
| App.RunOne | OpcUaCLI/App.cs:36-65 | a running loop given one line takes exactly one turn on it |
| App.ExecuteKeepsConsistent | OpcUaCLI/App.cs:54-65 | from a state where connected implies a session and a browser, no command disposes a missing session or drives a missing browser, and the state stays so |
| App.StepKeepsConsistent | OpcUaCLI/App.cs:36-66 | one turn of the loop keeps that consistency and never faults on a missing session or browser |
| App.StartConsistent | OpcUaCLI/App.cs:21-31 | start-up, with or without a host, yields a consistent state |
| App.RunNeverMissesSession | OpcUaCLI/App.cs:36-66 | over any sequence of lines the loop never disposes a missing session nor drives a missing browser |
| App.DisconnectedUnknownCommand | OpcUaCLI/App.cs:69-86 | while disconnected any other word prints "Unknown command" and changes nothing |
| App.BlankLineSkipped | OpcUaCLI/App.cs:46-47 | an empty command does nothing |
| App.ExitStops | OpcUaCLI/App.cs:54-60 | exit stops the loop and disconnects exactly when connected |
| App.FailedInitThenList | OpcUaCLI/App.cs:69-93 | after a connect whose initialisation fails, the client is connected with an empty browser and the next ls ends the program |
| App.ReadNamedNode | OpcUaCLI/App.cs:112-129 | read with a name shows the first child with that name or reports it missing, and changes no state |
| App.ReadSelectedNode | OpcUaCLI/App.cs:112-129 | read without a name shows the selected node, or reports it missing when nothing is selected, and changes no state |

## Left out

- Transport and security setup inside `Connect` (application configuration, certificate stores, endpoint selection, session creation) is an oracle. It maps a requested address to the endpoint URL of the created session, or fails.
- The session's service calls are pure functions of an address space. These are the node read, the batched attribute read and the browse. `async` adds nothing. A failure of the whole batched read service is not modelled, and the result count is taken to equal the request count.
- Browse continuation points are ignored, as in the code. A node's `references` stand for what the first browse response returns.
- `App.Run` and `App.Step` take one server (`Network.server`) for the whole run. It is the same whatever address each `connect` names, and it stays the same across disconnects and reconnects. The endpoint map decides only whether a connect succeeds and what host it reports. Each call of the browser and the controller takes its own `Server` or `Space`, so single transitions hold against a server that changes between calls.
- `Write` in the controller is not modelled. The command loop never calls it and answers `write` with "Not implemented".
- `BrowseAll` is not modelled. It is private, unused, writes to the console and swallows exceptions.
- Console I/O is left out: the prompt text, the help text, and the column layout of the node list and node info. Only the 50-character cap of the value column is modelled.
- The string form of arbitrary server values is left out. The `Opaque` variant carries it as given, and integers render as decimal numerals.
- The second `NodeDTO` record (shared library) and the unused `Attribute` class in the browser's file are not modelled. The shared record duplicates the client record without its class field.
- Attribute ids are unbounded naturals. Every id used is a constant from 1 to 27, so 32-bit width never matters.
- Rendering.ValueColumnWidth: measures a rendering in characters (Unicode scalar values), while `.Length` counts UTF-16 code units. A rendering with a character outside the Basic Multilingual Plane is one shorter per such character in the model, so the column width can be smaller than the program's.
- App.RunNeverMissesSession: assumes that the server calls fail only with server errors, as `OpcBrowser.ControllerServerReportsServerErrors` shows for the controller's calls.
- App.StepKeepsConsistent: assumes the same of the server calls.
- App.ExecuteKeepsConsistent: assumes the same of the server calls. It also assumes that navigation, read and disconnect commands are run only while connected, which `App.Classify` guarantees.

=== FILE: app.dfy ===
/** The command loop: splitting console lines, routing commands by connection
    state, and the effect of each command on the controller and the browser.

    One call of `Step` is one turn of the loop. An exception that the loop
    does not catch ends the program; the model reports it as `Crash`.
 */
module App {
  import opened Outcomes
  import opened NodeModel
  import G = OpcController
  import N = OpcBrowser
  import Strings
  import Rendering

  // ---------------------------------------------------------------------
  // Parsing
  // ---------------------------------------------------------------------

  /** Split a console line at its first space: the command, and the whole
      rest of the line (spaces kept) if there was a space at all. */
  function SplitLine(line: string): (r: (string, Option<string>))
    ensures ' ' !in r.0
    ensures r.1.None? <==> ' ' !in line
    ensures r.1.None? ==> r.0 == line
    ensures r.1.Some? ==> line == r.0 + " " + r.1.value
  {
    if ' ' !in line then (line, None)
    else
      var i := Strings.FirstIndex(line, ' ');
      assert line == line[..i] + " " + line[i + 1..];
      (line[..i], Some(line[i + 1..]))
  }

  /** The split is the only one with a space-free command: any line written as
      a space-free command, a space and a remainder splits into exactly those. */
  lemma SplitLineUnique(line: string, cmd: string, args: string)
    requires ' ' !in cmd && line == cmd + " " + args
    ensures SplitLine(line) == (cmd, Some(args))
  {
    assert line[|cmd|] == ' ';
    var (c, a) := SplitLine(line);
    assert a.Some?;
    assert c == line[..|cmd|] == cmd;
  }

  /** What a line asks for, after routing by connection state. */
  datatype Command =
    | Skip                          // an empty command
    | Help
    | Exit
    | Connect(address: Option<string>)
    | List                          // "ls"
    | Up                            // "cd .."
    | MissingName                   // "cd" without a name
    | Enter(name: string)           // "cd <name>"
    | Read(target: Option<string>)  // "read", with a non-empty name or none
    | Write
    | Disconnect
    | Unrecognised

  /** Route a command and its arguments. `help` and `exit` are handled in both
      states; otherwise a disconnected client knows only `connect`. */
  function Classify(cmd: string, args: Option<string>, connected: bool): (c: Command)
    ensures c == Skip <==> cmd == ""
    ensures c == Help <==> cmd == "help"
    ensures c == Exit <==> cmd == "exit"
    ensures c.Connect? <==> !connected && cmd == "connect"
    ensures c.Connect? ==> c.address == args
    ensures c == List <==> connected && cmd == "ls"
    ensures c == Up || c == MissingName || c.Enter? <==> connected && cmd == "cd"
    ensures c.Enter? ==> args == Some(c.name) && c.name != "" && c.name != ".."
    ensures c.Read? <==> connected && cmd == "read"
    ensures c.Read? && c.target.Some? ==> c.target == args && c.target.value != ""
    ensures c == Write <==> connected && cmd == "write"
    ensures c == Disconnect <==> connected && cmd == "disconnect"
  {
    if cmd == "" then Skip
    else if cmd == "help" then Help
    else if cmd == "exit" then Exit
    else if !connected then
      if cmd == "connect" then Connect(args) else Unrecognised
    else if cmd == "ls" then List
    else if cmd == "cd" && args == Some("..") then Up
    else if cmd == "cd" then
      if args.None? || args.value == "" then MissingName else Enter(args.value)
    else if cmd == "read" then
      if args.Some? && args.value != "" then Read(args) else Read(None)
    else if cmd == "write" then Write
    else if cmd == "disconnect" then Disconnect
    else Unrecognised
  }

  /** While disconnected, the only commands are the empty one, `help`, `exit`
      and `connect`; every other word is unrecognised. */
  lemma DisconnectedCommands(cmd: string, args: Option<string>)
    ensures var c := Classify(cmd, args, false);
      && (c.Skip? || c.Help? || c.Exit? || c.Connect? || c.Unrecognised?)
      && (c.Unrecognised? <==> cmd !in {"", "help", "exit", "connect"})
      && (c.Connect? ==> c.address == args)
  {
  }

  /** `disconnect` is routed only while connected; `help` and `exit` are
      routed the same way in both states. */
  lemma StateIndependentCommands(cmd: string, args: Option<string>)
    ensures Classify(cmd, args, false) != Disconnect
    ensures cmd == "help" ==> Classify(cmd, args, false) == Classify(cmd, args, true) == Help
    ensures cmd == "exit" ==> Classify(cmd, args, false) == Classify(cmd, args, true) == Exit
  {
  }

  /** `cd ..` goes up even though it also has the shape of `cd <name>`, and
      `cd` with no or an empty argument navigates nowhere. */
  lemma CdRouting(args: Option<string>)
    ensures args == Some("..") ==> Classify("cd", args, true) == Up
    ensures args != Some("..") && args.Some? && args.value != "" ==> Classify("cd", args, true) == Enter(args.value)
    ensures args.None? || args == Some("") ==> Classify("cd", args, true) == MissingName
  {
  }

  // ---------------------------------------------------------------------
  // State and effects
  // ---------------------------------------------------------------------

  /** The loop's state: the controller, the browser (unset until the first
      connect) and whether the loop has been told to stop. */
  datatype AppState = AppState(controller: G.Controller, browser: Option<N.Browser>, stopped: bool)

  const InitialApp: AppState := AppState(G.InitialController, None, false)

  /** What the outside world answers: which addresses a session can be opened
      on, and the server behind the session. */
  datatype Network = Network(endpoints: G.Endpoints, server: N.Server)

  /** What a turn of the loop writes to the console. */
  datatype Output =
    | Silent
    | HelpText(connected: bool)
    | UnknownCommand
    | ConnectError
    | MissingParameters
    | NodeNotFound
    | NotImplemented
    | NodeList(nodes: seq<Node>)
    | NodeInfo(node: Node, valueWidth: nat)

  /** The result of one turn: the next state and output, or the uncaught
      exception that ends the program. */
  datatype StepResult = Next(state: AppState, output: Output) | Crash(error: Error)

  /** The node `read` shows: the first listed child with the given name, or
      the selected node when no name is given. */
  function ReadTarget(b: N.Browser, target: Option<string>): (r: Option<Node>)
    ensures target.None? ==> r == b.selected
    ensures target.Some? ==>
      (r.None? <==> forall j :: 0 <= j < |b.available| ==> b.available[j].name != target.value)
    ensures target.Some? && r.Some? ==> exists i :: (0 <= i < |b.available|
      && r.value == b.available[i] && r.value.name == target.value
      && forall j :: 0 <= j < i ==> b.available[j].name != target.value)
  {
    match target
    case None => b.selected
    case Some(name) =>
      match N.FirstNamed(b.available, name)
      case None => None
      case Some(i) => Some(b.available[i])
  }

  /** Connect, then set up a fresh browser and initialise it. A failed connect
      changes nothing; a failed initialisation leaves the client connected with
      a browser that has no path. */
  function ConnectAndInit(app: AppState, address: Option<string>, net: Network): (r: (Outcome, AppState))
    ensures r.1.stopped == app.stopped
    ensures !G.Connect(app.controller, address, net.endpoints).0.Pass? ==> r.1 == app && r.0.Fail?
    ensures G.Connect(app.controller, address, net.endpoints).0.Pass? ==>
      && r.1.controller == G.Connect(app.controller, address, net.endpoints).1
      && r.1.browser == Some(N.Init(N.Fresh, net.server).1)
      && (r.0.Pass? <==> N.Init(N.Fresh, net.server).0.Ok?)
  {
    var (connected, c) := G.Connect(app.controller, address, net.endpoints);
    if connected.Fail? then (connected, app)
    else
      var (init, b) := N.Init(N.Fresh, net.server);
      var app' := app.(controller := c, browser := Some(b));
      if init.Err? then (Fail(init.error), app') else (Pass, app')
  }

  /** Dispose the session (when `quit` also stop the loop). */
  function Close(app: AppState, quit: bool): StepResult {
    var (o, c) := G.Disconnect(app.controller);
    if o.Fail? then Crash(o.error)
    else Next(app.(controller := c, stopped := app.stopped || quit), Silent)
  }

  /** The effect of one routed command. */
  function Execute(app: AppState, cmd: Command, net: Network): (r: StepResult)
    ensures r.Crash? ==> cmd.Exit? || cmd.Disconnect? || cmd.List? || cmd.Up? || cmd.Enter? || cmd.Read?
    ensures r.Next? ==> r.state.stopped == (app.stopped || cmd.Exit?)
    ensures r.Next? && (cmd.Exit? || cmd.Disconnect?) ==> !r.state.controller.connected
    ensures r.Next? && !(cmd.Connect? || cmd.Exit? || cmd.Disconnect?) ==> r.state.controller == app.controller
    ensures r.Next? && !(cmd.Connect? || cmd.List? || cmd.Up? || cmd.Enter?) ==> r.state.browser == app.browser
    ensures r.Next? && cmd.Connect? ==> r.state == ConnectAndInit(app, cmd.address, net).1
    ensures cmd.Disconnect? ==>
      if app.controller.session.None? then r == Crash(NoSession)
      else r == Next(app.(controller := G.Disconnect(app.controller).1), Silent)
    ensures r.Next? && cmd.List? ==>
      && app.browser.Some?
      && r.state.browser == Some(N.Update(app.browser.value, net.server).1)
      && r.output == NodeList(r.state.browser.value.available)
    ensures r.Next? && cmd.Up? ==>
      app.browser.Some? && r.state.browser == Some(N.NavigateBack(app.browser.value, net.server).1)
    ensures r.Next? && cmd.Enter? ==>
      app.browser.Some? && r.state.browser == Some(N.NavigateTo(app.browser.value, net.server, cmd.name).1)
    ensures r.Crash? && N.ReportsServerErrors(net.server) ==> r.error != EndOfInput
  {
    match cmd
    case Skip => Next(app, Silent)
    case Help => Next(app, HelpText(app.controller.connected))
    case Exit =>
      if app.controller.connected then Close(app, true)
      else Next(app.(stopped := true), Silent)
    case Connect(address) =>
      var (o, app') := ConnectAndInit(app, address, net);
      Next(app', if o.Fail? then ConnectError else Silent)
    case Unrecognised => Next(app, UnknownCommand)
    case MissingName => Next(app, MissingParameters)
    case Write => Next(app, NotImplemented)
    case Disconnect => Close(app, false)
    case List =>
      if app.browser.None? then Crash(NoBrowser)
      else
        var (o, b) := N.Update(app.browser.value, net.server);
        if o.Fail? then Crash(o.error) else Next(app.(browser := Some(b)), NodeList(b.available))
    case Up =>
      if app.browser.None? then Crash(NoBrowser)
      else
        var (res, b) := N.NavigateBack(app.browser.value, net.server);
        if res.Err? then Crash(res.error) else Next(app.(browser := Some(b)), Silent)
    case Enter(name) =>
      if app.browser.None? then Crash(NoBrowser)
      else
        var (res, b) := N.NavigateTo(app.browser.value, net.server, name);
        if res.Err? then Crash(res.error) else Next(app.(browser := Some(b)), Silent)
    case Read(target) =>
      if app.browser.None? then Crash(NoBrowser)
      else
        match ReadTarget(app.browser.value, target)
        case None => Next(app, NodeNotFound)
        case Some(node) =>
          match Rendering.ValueColumnWidth(node.attributes)
          case Err(e) => Crash(e)
          case Ok(w) => Next(app, NodeInfo(node, w))
  }

  /** One turn of the loop: read a line, split it, route it, run it. */
  function Step(app: AppState, line: Option<string>, net: Network): (r: StepResult)
    ensures line.None? ==> r == Crash(EndOfInput)
    ensures r == Crash(EndOfInput) && N.ReportsServerErrors(net.server) ==> line.None?
    ensures r.Next? ==> r.state.stopped == (app.stopped || SplitLine(line.value).0 == "exit")
    ensures line.Some? && !app.controller.connected ==> r.Next?
    ensures line.Some? && !app.controller.connected && SplitLine(line.value).0 !in {"exit", "connect"} ==>
      r.state == app
  {
    match line
    case None => Crash(EndOfInput)
    case Some(l) =>
      var (cmd, args) := SplitLine(l);
      Execute(app, Classify(cmd, args, app.controller.connected), net)
  }

  /** Start-up: with a host, connect and initialise first; a failure there
      ends the program after reporting it. */
  function Start(host: Option<string>, net: Network): (r: StepResult)
    ensures r.Next?
    ensures host.None? ==> r == Next(InitialApp, Silent)
    ensures r.state.stopped <==> r.output == ConnectError
    ensures host.Some? && !r.state.stopped ==>
      && r.state.controller.connected
      && r.state.browser.Some?
      && N.Valid(r.state.browser.value)
  {
    if host.None? then Next(InitialApp, Silent)
    else
      var (o, app) := ConnectAndInit(InitialApp, host, net);
      if o.Fail? then Next(app.(stopped := true), ConnectError) else Next(app, Silent)
  }

  /** The loop over a sequence of console lines, until it stops, runs out of
      lines or crashes. */
  function Run(app: AppState, lines: seq<Option<string>>, net: Network): (r: StepResult)
    ensures app.stopped ==> r == Next(app, Silent)
    ensures r.Next? && !r.state.stopped ==> forall i :: 0 <= i < |lines| ==> lines[i].Some?
    ensures r == Crash(EndOfInput) && N.ReportsServerErrors(net.server) ==>
      exists i :: 0 <= i < |lines| && lines[i].None?
    ensures r.Next? && r.state.stopped && !app.stopped ==>
      exists i :: 0 <= i < |lines| && lines[i].Some? && SplitLine(lines[i].value).0 == "exit"
    ensures (exists i :: 0 <= i < |lines| && lines[i].Some? && SplitLine(lines[i].value).0 == "exit") ==>
      r.Crash? || r.state.stopped
    decreases |lines|
  {
    if app.stopped || |lines| == 0 then Next(app, Silent)
    else
      match Step(app, lines[0], net)
      case Crash(e) => Crash(e)
      case Next(app', _) => Run(app', lines[1..], net)
  }

  // ---------------------------------------------------------------------
  // Properties of the loop
  // ---------------------------------------------------------------------

  /** While connected there is a session to dispose and a browser to drive. */
  ghost predicate Consistent(app: AppState) {
    app.controller.connected ==> app.controller.session.Some? && app.browser.Some?
  }

  /** A routed command run from a consistent state never disposes a missing
      session nor drives a missing browser, and leads to a consistent state.
      `disconnect` is routed only while connected, which is what keeps the
      session there to dispose. */
  lemma ExecuteKeepsConsistent(app: AppState, cmd: Command, net: Network)
    requires Consistent(app)
    requires N.ReportsServerErrors(net.server)
    requires cmd.Disconnect? || cmd.List? || cmd.Up? || cmd.Enter? || cmd.Read? ==> app.controller.connected
    ensures Execute(app, cmd, net) != Crash(NoSession)
    ensures Execute(app, cmd, net) != Crash(NoBrowser)
    ensures Execute(app, cmd, net).Next? ==> Consistent(Execute(app, cmd, net).state)
  {
    match cmd
    case Connect(address) =>
      var (o, app') := ConnectAndInit(app, address, net);
    case List =>
      var (o, b) := N.Update(app.browser.value, net.server);
      assert o.Fail? ==> o.error == NoSelectedNode || IsServerError(o.error);
    case Up =>
      var (res, b) := N.NavigateBack(app.browser.value, net.server);
      assert res.Err? ==> IsServerError(res.error);
    case Enter(name) =>
      var (res, b) := N.NavigateTo(app.browser.value, net.server, name);
      assert res.Err? ==> IsServerError(res.error);
    case _ =>
  }

  /** One turn from a consistent state never disposes a missing session nor
      drives a missing browser, and leads to a consistent state. */
  lemma StepKeepsConsistent(app: AppState, line: Option<string>, net: Network)
    requires Consistent(app)
    requires N.ReportsServerErrors(net.server)
    ensures Step(app, line, net) != Crash(NoSession)
    ensures Step(app, line, net) != Crash(NoBrowser)
    ensures Step(app, line, net).Next? ==> Consistent(Step(app, line, net).state)
  {
    if line.Some? {
      var (cmd, args) := SplitLine(line.value);
      ExecuteKeepsConsistent(app, Classify(cmd, args, app.controller.connected), net);
    }
  }

  /** Start-up leaves the loop in a consistent state. */
  lemma StartConsistent(host: Option<string>, net: Network)
    ensures Start(host, net).Next?
    ensures Consistent(Start(host, net).state)
  {
  }

  /** However the user types, the session is only disposed while it exists
      and the browser is only driven once it exists. */
  lemma {:induction false} RunNeverMissesSession(app: AppState, lines: seq<Option<string>>, net: Network)
    requires Consistent(app)
    requires N.ReportsServerErrors(net.server)
    ensures Run(app, lines, net) != Crash(NoSession)
    ensures Run(app, lines, net) != Crash(NoBrowser)
    decreases |lines|
  {
    if !app.stopped && |lines| > 0 {
      StepKeepsConsistent(app, lines[0], net);
      match Step(app, lines[0], net)
      case Crash(e) =>
      case Next(app', _) => RunNeverMissesSession(app', lines[1..], net);
    }
  }

  /** While disconnected, a word other than `help`, `exit` and `connect`
      prints "Unknown command" and changes nothing. */
  lemma DisconnectedUnknownCommand(app: AppState, line: string, net: Network)
    requires !app.controller.connected
    requires SplitLine(line).0 !in {"", "help", "exit", "connect"}
    ensures Step(app, Some(line), net) == Next(app, UnknownCommand)
  {
    DisconnectedCommands(SplitLine(line).0, SplitLine(line).1);
  }

  /** An empty command does nothing. */
  lemma BlankLineSkipped(app: AppState, line: string, net: Network)
    requires SplitLine(line).0 == ""
    ensures Step(app, Some(line), net) == Next(app, Silent)
  {
  }

  /** `exit` always stops the loop, and disconnects exactly when connected. */
  lemma ExitStops(app: AppState, net: Network)
    requires Consistent(app)
    ensures Step(app, Some("exit"), net).Next?
    ensures var s := Step(app, Some("exit"), net).state;
      && s.stopped
      && !s.controller.connected
      && (app.controller.connected ==> s.controller.session == Some(app.controller.session.value.(disposed := true)))
      && (!app.controller.connected ==> s.controller == app.controller)
  {
    assert SplitLine("exit") == ("exit", None);
  }

  /** After a connect whose initialisation fails the client stays connected
      with a browser that has nothing selected, so the next `ls` ends the
      program. */
  lemma FailedInitThenList(app: AppState, address: Option<string>, net: Network)
    requires G.Connect(app.controller, address, net.endpoints).0.Pass?
    requires N.Init(N.Fresh, net.server).0.Err?
    ensures var app' := ConnectAndInit(app, address, net).1;
      && app'.controller.connected
      && app'.browser == Some(N.Fresh)
      && Step(app', Some("ls"), net) == Crash(NoSelectedNode)
  {
    assert SplitLine("ls") == ("ls", None);
  }

  /** `read <name>` shows the first listed child called `name`, or reports
      that there is none; it changes no state. */
  lemma ReadNamedNode(app: AppState, name: string, net: Network)
    requires app.controller.connected && app.browser.Some?
    requires name != ""
    ensures var r := Step(app, Some("read " + name), net); var b := app.browser.value;
      && (r.Next? ==> r.state == app)
      && ((forall j :: 0 <= j < |b.available| ==> b.available[j].name != name) ==> r == Next(app, NodeNotFound))
      && (forall i :: 0 <= i < |b.available| && b.available[i].name == name
            && (forall j :: 0 <= j < i ==> b.available[j].name != name)
            && |b.available[i].attributes| > 0
            ==> r.Next? && r.output.NodeInfo? && r.output.node == b.available[i])
  {
    SplitLineUnique("read " + name, "read", name);
    assert Classify("read", Some(name), true) == Read(Some(name));
    assert Step(app, Some("read " + name), net) == Execute(app, Read(Some(name)), net);
  }

  /** `read` without a name shows the selected node, or reports that there is
      none when nothing is selected; it changes no state. */
  lemma ReadSelectedNode(app: AppState, net: Network)
    requires app.controller.connected && app.browser.Some?
    ensures var r := Step(app, Some("read"), net); var b := app.browser.value;
      && (r.Next? ==> r.state == app)
      && (b.selected.None? ==> r == Next(app, NodeNotFound))
      && (b.selected.Some? && |b.selected.value.attributes| > 0 ==>
            r.Next? && r.output.NodeInfo? && r.output.node == b.selected.value)
  {
    assert SplitLine("read") == ("read", None);
  }

  /** Running two batches of lines one after the other is running them
      together: the loop carries its state from the first into the second. */
  lemma {:induction false} RunAppend(app: AppState, xs: seq<Option<string>>, ys: seq<Option<string>>, net: Network)
    ensures Run(app, xs + ys, net) ==
      match Run(app, xs, net)
      case Crash(e) => Crash(e)
      case Next(s, _) => Run(s, ys, net)
    decreases |xs|
  {
    if !app.stopped && |xs| > 0 {
      assert (xs + ys)[0] == xs[0];
      assert (xs + ys)[1..] == xs[1..] + ys;
      match Step(app, xs[0], net)
      case Crash(e) =>
      case Next(app', _) => RunAppend(app', xs[1..], ys, net);
    } else if |xs| == 0 {
      assert xs + ys == ys;
    }
  }

  /** A running loop given one line takes exactly one turn on it. */
  lemma RunOne(app: AppState, line: Option<string>, net: Network)
    requires !app.stopped
    ensures Run(app, [line], net) ==
      match Step(app, line, net)
      case Crash(e) => Crash(e)
      case Next(s, _) => Next(s, Silent)
  {
    assert [line][1..] == [];
  }
}

=== FILE: attributes.dfy ===
/** The fixed set of attribute ids the client asks every node for, and the
    table that names them.

    The numeric ids are those of OPC UA Part 6 (OPC 10000-6), Annex A.1.
 */
module AttributeTable {
  import opened Outcomes

  /** An attribute id; the protocol carries it as a 32-bit unsigned integer. */
  type AttrId = nat

  const NodeId: AttrId := 1
  const NodeClass: AttrId := 2
  const BrowseName: AttrId := 3
  const DisplayName: AttrId := 4
  const Description: AttrId := 5
  const WriteMask: AttrId := 6
  const UserWriteMask: AttrId := 7
  const IsAbstract: AttrId := 8
  const Symmetric: AttrId := 9
  const InverseName: AttrId := 10
  const ContainsNoLoops: AttrId := 11
  const EventNotifier: AttrId := 12
  const Value: AttrId := 13
  const DataType: AttrId := 14
  const ValueRank: AttrId := 15
  const ArrayDimensions: AttrId := 16
  const AccessLevel: AttrId := 17
  const UserAccessLevel: AttrId := 18
  const MinimumSamplingInterval: AttrId := 19
  const Historizing: AttrId := 20
  const Executable: AttrId := 21
  const UserExecutable: AttrId := 22
  const DataTypeDefinition: AttrId := 23
  const RolePermissions: AttrId := 24
  const UserRolePermissions: AttrId := 25
  const AccessRestrictions: AttrId := 26
  const AccessLevelEx: AttrId := 27

  /** The label given to every id outside the table. */
  const Unknown: string := "Unknown"

  /** The ids a node read asks for, in the order the request lists them. */
  const AttributeIds: seq<AttrId> := [
    AccessLevel, AccessLevelEx, AccessRestrictions, ArrayDimensions, BrowseName,
    ContainsNoLoops, DataType, DataTypeDefinition, Description, DisplayName,
    EventNotifier, Executable, Historizing, InverseName, IsAbstract,
    MinimumSamplingInterval, NodeClass, NodeId, RolePermissions, Symmetric,
    UserAccessLevel, UserExecutable, UserRolePermissions, UserWriteMask, Value,
    ValueRank, WriteMask
  ]

  /** The display label of an attribute id: a proper label exactly for the
      standard ids 1 to 27. */
  function AttributeName(a: AttrId): (name: string)
    ensures name != Unknown <==> 1 <= a <= 27
  {
    Label(a)
  }

  /** The label table itself, one case per id. */
  function Label(a: AttrId): string {
    if a == AccessLevel then "AccessLevel"
    else if a == AccessLevelEx then "AccessLevelEx"
    else if a == AccessRestrictions then "AccessRestrictions"
    else if a == ArrayDimensions then "ArrayDimensions"
    else if a == BrowseName then "BrowseName"
    else if a == ContainsNoLoops then "ContainsNoLoops"
    else if a == DataType then "DataType"
    else if a == DataTypeDefinition then "DataTypeDefinition"
    else if a == Description then "Description"
    else if a == DisplayName then "DisplayName"
    else if a == EventNotifier then "EventNotifier"
    else if a == Executable then "Executable"
    else if a == Historizing then "Historizing"
    else if a == InverseName then "InverseName"
    else if a == IsAbstract then "IsAbstract"
    else if a == MinimumSamplingInterval then "MinimumSamplingInterval"
    else if a == NodeClass then "NodeClass"
    else if a == NodeId then "NodeId"
    else if a == RolePermissions then "RolePermissions"
    else if a == Symmetric then "Symmetric"
    else if a == UserAccessLevel then "UserAccessLevel"
    else if a == UserExecutable then "UserExecutable"
    else if a == UserRolePermissions then "UserRolePermissions"
    else if a == UserWriteMask then "UserWriteMask"
    else if a == Value then "Value"
    else if a == ValueRank then "ValueRank"
    else if a == WriteMask then "WriteMask"
    else Unknown
  }

  /** The request list has 27 entries, no id twice, and covers exactly the ids
      1 through 27 of the standard. */
  lemma AttributeIdsDistinct()
    ensures |AttributeIds| == 27
    ensures forall i, j :: 0 <= i < j < |AttributeIds| ==> AttributeIds[i] != AttributeIds[j]
    ensures forall a: AttrId :: a in AttributeIds <==> 1 <= a <= 27
  {
    forall a: AttrId | 1 <= a <= 27
      ensures a in AttributeIds
    {
      assert AttributeName(a) != Unknown;
    }
  }

  /** The table is total: an id is labelled "Unknown" exactly when it is not
      one of the requested ids. */
  lemma AttributeNameTotal(a: AttrId)
    ensures AttributeName(a) == Unknown <==> a !in AttributeIds
  {
  }

  /** The labels of the requested ids, position by position. */
  const AttributeNames: seq<string> := [
    "AccessLevel", "AccessLevelEx", "AccessRestrictions", "ArrayDimensions", "BrowseName",
    "ContainsNoLoops", "DataType", "DataTypeDefinition", "Description", "DisplayName",
    "EventNotifier", "Executable", "Historizing", "InverseName", "IsAbstract",
    "MinimumSamplingInterval", "NodeClass", "NodeId", "RolePermissions", "Symmetric",
    "UserAccessLevel", "UserExecutable", "UserRolePermissions", "UserWriteMask", "Value",
    "ValueRank", "WriteMask"
  ]

  /** `AttributeNames` lists the label of each requested id. */
  lemma AttributeNamesByPosition()
    ensures |AttributeNames| == |AttributeIds|
    ensures forall i :: 0 <= i < |AttributeIds| ==> Label(AttributeIds[i]) == AttributeNames[i]
  {
  }

  /** No two requested ids share a label. */
  lemma AttributeNamesDistinct()
    ensures forall i, j :: 0 <= i < |AttributeIds| && 0 <= j < |AttributeIds| && i != j ==>
      AttributeName(AttributeIds[i]) != AttributeName(AttributeIds[j])
  {
    AttributeNamesByPosition();
    AttributeNamesListDistinct();
    forall i, j | 0 <= i < |AttributeIds| && 0 <= j < |AttributeIds| && i != j
      ensures AttributeName(AttributeIds[i]) != AttributeName(AttributeIds[j])
    {
      if i < j {
        assert AttributeNames[i] != AttributeNames[j];
      } else {
        assert AttributeNames[j] != AttributeNames[i];
      }
    }
  }

  lemma AttributeNamesListDistinct()
    ensures forall i, j :: 0 <= i < j < |AttributeNames| ==> AttributeNames[i] != AttributeNames[j]
  {
  }

  /** The first id of `ids` whose label is `name`, if any. */
  function FindByName(ids: seq<AttrId>, name: string): (r: Option<nat>)
    ensures r.Some? ==> r.value < |ids| && AttributeName(ids[r.value]) == name
    ensures r.Some? ==> forall j :: 0 <= j < r.value ==> AttributeName(ids[j]) != name
    ensures r.None? ==> forall j :: 0 <= j < |ids| ==> AttributeName(ids[j]) != name
  {
    if |ids| == 0 then None
    else if AttributeName(ids[0]) == name then Some(0)
    else match FindByName(ids[1..], name)
      case None => None
      case Some(k) => Some(k + 1)
  }

  /** The inverse of `AttributeName` over the requested ids. */
  function AttributeIdByName(name: string): (r: Option<AttrId>)
    ensures r.Some? <==> exists a :: a in AttributeIds && AttributeName(a) == name
    ensures r.Some? ==> r.value in AttributeIds && AttributeName(r.value) == name
  {
    match FindByName(AttributeIds, name)
    case None => None
    case Some(i) => Some(AttributeIds[i])
  }

  /** Labels identify requested ids: looking a label up gives back its id. */
  lemma AttributeNameRoundTrip(a: AttrId)
    requires a in AttributeIds
    ensures AttributeIdByName(AttributeName(a)) == Some(a)
  {
    AttributeNamesDistinct();
    var k :| 0 <= k < |AttributeIds| && AttributeIds[k] == a;
    var i := FindByName(AttributeIds, AttributeName(a)).value;
    assert AttributeName(AttributeIds[i]) == AttributeName(AttributeIds[k]);
  }
}

=== FILE: browser.dfy ===
/** The browser: a breadcrumb path of visited nodes, the selected node and the
    listing of its children, moved by pure transitions.

    The browser reaches the server only through the controller's `ReadNode`
    and `Browse`; `Server` packages those two calls, and `ControllerServer` supplies
    the controller's own for a given address space.

    Each transition returns the outcome the client reports (a boolean, or
    the error its server call raised) together with the browser state the
    client is left in. The server calls come before any field is assigned
    in every operation except `Update`, so a failing call leaves the state as
    it was; `Update` assigns the selected node before its browse can fail.
 */
module OpcBrowser {
  import opened Outcomes
  import opened NodeModel
  import opened OpcController

  /** The two controller calls the browser makes. */
  datatype Server = Server(readNode: NodeId -> Result<Node>, browse: NodeId -> Result<seq<Node>>)

  /** The controller's calls answered from address space `space`. */
  function ControllerServer(space: Space): (s: Server)
    ensures forall id :: s.readNode(id) == ReadNode(space, id)
    ensures forall id :: s.browse(id) == Browse(space, id)
  {
    Server(id => ReadNode(space, id), id => Browse(space, id))
  }

  /** A node read by id reports that id. */
  ghost predicate KeepsIds(server: Server) {
    forall id :: server.readNode(id).Ok? ==> server.readNode(id).value.nodeId == id
  }

  /** The controller keeps ids on a well-formed address space. */
  lemma ControllerServerKeepsIds(space: Space)
    requires WellFormed(space)
    ensures KeepsIds(ControllerServer(space))
  {
    forall id | ControllerServer(space).readNode(id).Ok?
      ensures ControllerServer(space).readNode(id).value.nodeId == id
    {
      ReadNodeKeepsId(space, id);
    }
  }

  /** The calls fail only with the errors a server call can raise. */
  ghost predicate ReportsServerErrors(server: Server) {
    && (forall id :: server.readNode(id).Err? ==> IsServerError(server.readNode(id).error))
    && (forall id :: server.browse(id).Err? ==> IsServerError(server.browse(id).error))
  }

  /** The controller's calls raise only server errors. */
  lemma ControllerServerReportsServerErrors(space: Space)
    ensures ReportsServerErrors(ControllerServer(space))
  {
  }

  /** The browser's fields. `selected` is unset until the first `Init`. */
  datatype Browser = Browser(path: seq<Node>, selected: Option<Node>, available: seq<Node>)

  /** A freshly constructed browser. */
  const Fresh: Browser := Browser([], None, [])

  /** The id of the address space's root folder (OPC UA Part 5, RootFolder). */
  const RootFolderId: NodeId := "i=84"

  /** The path is non-empty and the selected node is the last path entry, by id. */
  ghost predicate Valid(b: Browser) {
    && |b.path| > 0
    && b.selected.Some?
    && b.selected.value.nodeId == b.path[|b.path| - 1].nodeId
  }

  /** The position of the first listing entry named `name`, if any. */
  function FirstNamed(nodes: seq<Node>, name: string): (r: Option<nat>)
    ensures r.Some? ==> r.value < |nodes| && nodes[r.value].name == name
    ensures r.Some? ==> forall j :: 0 <= j < r.value ==> nodes[j].name != name
    ensures r.None? <==> forall j :: 0 <= j < |nodes| ==> nodes[j].name != name
  {
    if |nodes| == 0 then None
    else if nodes[0].name == name then Some(0)
    else match FirstNamed(nodes[1..], name)
      case None => None
      case Some(k) => Some(k + 1)
  }

  /** Read the root, browse it, then append it to the path and select it. */
  function Init(b: Browser, server: Server): (r: (Result<bool>, Browser))
    ensures r.0.Err? ==> r.1 == b
    ensures r.0.Ok? <==> server.readNode(RootFolderId).Ok? && server.browse(server.readNode(RootFolderId).value.nodeId).Ok?
    ensures r.0.Err? ==>
      if server.readNode(RootFolderId).Err? then r.0.error == server.readNode(RootFolderId).error
      else r.0.error == server.browse(server.readNode(RootFolderId).value.nodeId).error
    ensures r.0.Ok? ==>
      var root := server.readNode(RootFolderId).value;
      && r.0.value
      && r.1.path == b.path + [root]
      && r.1.selected == Some(root)
      && r.1.available == server.browse(root.nodeId).value
  {
    match server.readNode(RootFolderId)
    case Err(e) => (Err(e), b)
    case Ok(root) =>
      match server.browse(root.nodeId)
      case Err(e) => (Err(e), b)
      case Ok(nodes) => (Ok(true), Browser(b.path + [root], Some(root), nodes))
  }

  /** On a fresh browser `Init` leaves the root as the only path entry, selected,
      with its children listed. */
  lemma InitFresh(server: Server)
    requires Init(Fresh, server).0.Ok?
    ensures var b := Init(Fresh, server).1; var root := server.readNode(RootFolderId).value;
      && b.path == [root]
      && b.selected == Some(root)
      && b.available == server.browse(root.nodeId).value
      && Valid(b)
  {
  }

  /** Enter the first listed child named `name`. */
  function NavigateTo(b: Browser, server: Server, name: string): (r: (Result<bool>, Browser))
    ensures FirstNamed(b.available, name).None? ==> r == (Ok(false), b)
    ensures FirstNamed(b.available, name).Some? ==>
      var node := b.available[FirstNamed(b.available, name).value];
      && r.0 != Ok(false)
      && (r.0 == Ok(true) <==> server.browse(node.nodeId).Ok?)
      && (r.0.Err? ==> r.0.error == server.browse(node.nodeId).error)
    ensures r.0.Err? ==> r.1 == b
    ensures r.0 == Ok(true) ==>
      var i := FirstNamed(b.available, name).value;
      var node := b.available[i];
      && r.1.path == b.path + [node]
      && r.1.selected == Some(node)
      && server.browse(node.nodeId).Ok?
      && r.1.available == server.browse(node.nodeId).value
  {
    match FirstNamed(b.available, name)
    case None => (Ok(false), b)
    case Some(i) =>
      var node := b.available[i];
      match server.browse(node.nodeId)
      case Err(e) => (Err(e), b)
      case Ok(nodes) => (Ok(true), Browser(b.path + [node], Some(node), nodes))
  }

  /** A name that no listed child carries is a refusal, not an error. */
  lemma NavigateToAbsent(b: Browser, server: Server, name: string)
    requires forall j :: 0 <= j < |b.available| ==> b.available[j].name != name
    ensures NavigateTo(b, server, name) == (Ok(false), b)
  {
  }

  /** A listed name always leads to an attempt: the result is a move or the
      browse's error, and a move grows the path by exactly one entry, the first
      child carrying that name. */
  lemma NavigateToPresent(b: Browser, server: Server, name: string, i: nat)
    requires i < |b.available| && b.available[i].name == name
    ensures NavigateTo(b, server, name).0 != Ok(false)
    ensures NavigateTo(b, server, name).0.Ok? ==>
      var b' := NavigateTo(b, server, name).1;
      && |b'.path| == |b.path| + 1
      && b'.path[..|b.path|] == b.path
      && b'.path[|b.path|].name == name
      && exists k :: 0 <= k <= i && b'.path[|b.path|] == b.available[k]
  {
    var b' := NavigateTo(b, server, name).1;
    if NavigateTo(b, server, name).0.Ok? {
      assert b'.path[..|b.path|] == b.path;
    }
  }

  /** Return to the parent: refused at the root; otherwise browse the parent,
      then drop the last path entry and select the parent. */
  function NavigateBack(b: Browser, server: Server): (r: (Result<bool>, Browser))
    ensures |b.path| < 2 ==> r == (Ok(false), b)
    ensures |b.path| >= 2 ==>
      var parent := b.path[|b.path| - 2];
      && r.0 != Ok(false)
      && (r.0 == Ok(true) <==> server.browse(parent.nodeId).Ok?)
      && (r.0.Err? ==> r.0.error == server.browse(parent.nodeId).error)
    ensures r.0.Err? ==> r.1 == b
    ensures r.0 == Ok(true) ==>
      var parent := b.path[|b.path| - 2];
      && |b.path| >= 2
      && r.1.path == b.path[..|b.path| - 1]
      && r.1.selected == Some(parent)
      && server.browse(parent.nodeId).Ok?
      && r.1.available == server.browse(parent.nodeId).value
  {
    if |b.path| < 2 then (Ok(false), b)
    else
      var node := b.path[|b.path| - 2];
      match server.browse(node.nodeId)
      case Err(e) => (Err(e), b)
      case Ok(nodes) => (Ok(true), Browser(b.path[..|b.path| - 1], Some(node), nodes))
  }

  /** Going back pops only the top entry: all earlier entries stay in place. */
  lemma NavigateBackPopsTop(b: Browser, server: Server)
    requires NavigateBack(b, server).0 == Ok(true)
    ensures var b' := NavigateBack(b, server).1;
      && |b'.path| == |b.path| - 1 >= 1
      && (forall k :: 0 <= k < |b'.path| ==> b'.path[k] == b.path[k])
      && b'.selected == Some(b'.path[|b'.path| - 1])
  {
    var b' := NavigateBack(b, server).1;
    assert b'.path == b.path[..|b.path| - 1];
  }

  /** A successful step into a child followed by a successful step back gives
      back the original path, with the listing fetched afresh. */
  lemma NavigateToThenBack(b: Browser, server: Server, server': Server, name: string)
    requires NavigateTo(b, server, name).0 == Ok(true)
    requires NavigateBack(NavigateTo(b, server, name).1, server').0 == Ok(true)
    ensures var b'' := NavigateBack(NavigateTo(b, server, name).1, server').1;
      && b''.path == b.path
      && b''.selected == Some(b.path[|b.path| - 1])
      && b''.available == server'.browse(b.path[|b.path| - 1].nodeId).value
  {
    var b' := NavigateTo(b, server, name).1;
    assert b'.path[..|b'.path| - 1] == b.path;
  }

  /** Refresh: read the selected node again by its id, store it, then browse
      it. The path is never touched. */
  function Update(b: Browser, server: Server): (r: (Outcome, Browser))
    ensures r.1.path == b.path
    ensures b.selected.None? ==> r == (Fail(NoSelectedNode), b)
    ensures b.selected.Some? && server.readNode(b.selected.value.nodeId).Err? ==>
      r == (Fail(server.readNode(b.selected.value.nodeId).error), b)
    ensures b.selected.Some? && server.readNode(b.selected.value.nodeId).Ok? ==>
      var n := server.readNode(b.selected.value.nodeId).value;
      && (r.0.Pass? <==> server.browse(n.nodeId).Ok?)
      && (r.0.Fail? ==> r.0.error == server.browse(n.nodeId).error)
    ensures r.0.Pass? ==>
      && b.selected.Some?
      && server.readNode(b.selected.value.nodeId).Ok?
      && var n := server.readNode(b.selected.value.nodeId).value;
      && r.1.selected == Some(n)
      && server.browse(n.nodeId).Ok?
      && r.1.available == server.browse(n.nodeId).value
  {
    match b.selected
    case None => (Fail(NoSelectedNode), b)
    case Some(s) =>
      match server.readNode(s.nodeId)
      case Err(e) => (Fail(e), b)
      case Ok(n) =>
        var b1 := b.(selected := Some(n));
        match server.browse(n.nodeId)
        case Err(e) => (Fail(e), b1)
        case Ok(nodes) => (Pass, b1.(available := nodes))
  }

  /** When the browse after the re-read fails, the refreshed node has already
      been stored and the old listing remains. */
  lemma UpdateBrowseFailure(b: Browser, server: Server)
    requires b.selected.Some? && server.readNode(b.selected.value.nodeId).Ok?
    requires server.browse(server.readNode(b.selected.value.nodeId).value.nodeId).Err?
    ensures Update(b, server).0.Fail?
    ensures Update(b, server).1 == b.(selected := Some(server.readNode(b.selected.value.nodeId).value))
  {
  }

  // ---------------------------------------------------------------------
  // The invariant
  // ---------------------------------------------------------------------

  /** Every transition keeps a valid browser valid, whatever its outcome; a
      refresh needs the server to report each node under the id it was read by. */
  lemma TransitionsPreserveValid(b: Browser, server: Server, name: string)
    requires Valid(b)
    ensures Valid(NavigateTo(b, server, name).1)
    ensures Valid(NavigateBack(b, server).1)
    ensures KeepsIds(server) ==> Valid(Update(b, server).1)
  {
  }

  // ---------------------------------------------------------------------
  // Round trips over several levels
  // ---------------------------------------------------------------------

  /** Step into the children named `names`, one level each, stopping at the
      first refusal or error. */
  function Descend(b: Browser, server: Server, names: seq<string>): (r: (Result<bool>, Browser))
    ensures r.0 == Ok(true) ==> |r.1.path| == |b.path| + |names| && r.1.path[..|b.path|] == b.path
    decreases |names|
  {
    if |names| == 0 then (Ok(true), b)
    else
      var (res, b') := NavigateTo(b, server, names[0]);
      if res != Ok(true) then (res, b')
      else
        var r := Descend(b', server, names[1..]);
        if r.0 == Ok(true) then
          assert r.1.path[..|b'.path|] == b'.path;
          assert b'.path[..|b.path|] == b.path;
          assert r.1.path[..|b.path|] == r.1.path[..|b'.path|][..|b.path|];
          r
        else r
  }

  /** Step back `levels` times, stopping at the first refusal or error. */
  function Ascend(b: Browser, server: Server, levels: nat): (r: (Result<bool>, Browser))
    ensures r.0 == Ok(true) ==> |b.path| > levels || (levels == 0 && r.1 == b)
    ensures r.0 == Ok(true) ==> r.1.path == b.path[..|b.path| - levels]
    decreases levels
  {
    if levels == 0 then (Ok(true), b)
    else
      var (res, b') := NavigateBack(b, server);
      if res != Ok(true) then (res, b')
      else
        var r := Ascend(b', server, levels - 1);
        if r.0 == Ok(true) then
          assert r.1.path == b'.path[..|b'.path| - (levels - 1)];
          r
        else r
  }

  /** Going down any number of levels and back up as many restores the path. */
  lemma {:induction false} DescendAscendRestoresPath(b: Browser, server: Server, names: seq<string>)
    requires Descend(b, server, names).0 == Ok(true)
    requires Ascend(Descend(b, server, names).1, server, |names|).0 == Ok(true)
    ensures Ascend(Descend(b, server, names).1, server, |names|).1.path == b.path
  {
  }
}

=== FILE: controller.dfy ===
/** The session controller: connection flags, attribute-complete node reads and
    browsing, with the server replaced by an address-space oracle.
 */
module OpcController {
  import opened Outcomes
  import opened NodeModel
  import opened Seqs
  import Strings
  import A = AttributeTable

  // ---------------------------------------------------------------------
  // Connection state
  // ---------------------------------------------------------------------

  /** A session created on a server endpoint; disposing it does not clear the
      controller's reference to it. */
  datatype Session = Session(endpointUrl: string, disposed: bool)

  /** The controller's observable state: the host it reports, whether it
      considers itself connected, and its session reference. */
  datatype Controller = Controller(host: Option<string>, connected: bool, session: Option<Session>)

  /** A freshly constructed controller. */
  const InitialController: Controller := Controller(None, false, None)

  /** The outcome of endpoint selection and session creation: the addresses
      for which a session can be created, each with the URL of the endpoint
      the session ends up on (it may differ from the address asked for). */
  type Endpoints = map<string, string>

  /** Connect to `address`; the flags change only once the session exists. */
  function Connect(c: Controller, address: Option<string>, endpoints: Endpoints): (r: (Outcome, Controller))
    ensures r.0.Pass? <==> address.Some? && address.value in endpoints
    ensures r.0.Fail? ==> r.0.error == ConnectionFailed && r.1 == c
    ensures r.0.Pass? ==>
      var url := endpoints[address.value];
      r.1.connected && r.1.host == Some(url) && r.1.session == Some(Session(url, false))
  {
    match address
    case None => (Fail(ConnectionFailed), c)
    case Some(a) =>
      if a !in endpoints then (Fail(ConnectionFailed), c)
      else
        var session := Session(endpoints[a], false);
        (Pass, Controller(Some(session.endpointUrl), true, Some(session)))
  }

  /** Dispose the session and clear the connected flag. Without a session the
      dispose call dereferences nothing and faults before any field changes. */
  function Disconnect(c: Controller): (r: (Outcome, Controller))
    ensures r.0.Pass? <==> c.session.Some?
    ensures r.0.Fail? ==> r.0.error == NoSession && r.1 == c
    ensures r.0.Pass? ==>
      && !r.1.connected
      && r.1.host == c.host
      && r.1.session == Some(c.session.value.(disposed := true))
  {
    match c.session
    case None => (Fail(NoSession), c)
    case Some(s) => (Pass, c.(session := Some(s.(disposed := true)), connected := false))
  }

  /** After a successful connect, a disconnect always succeeds and leaves the
      controller disconnected with the host still reported. */
  lemma ConnectThenDisconnect(c: Controller, address: Option<string>, endpoints: Endpoints)
    requires Connect(c, address, endpoints).0.Pass?
    ensures Disconnect(Connect(c, address, endpoints).1).0.Pass?
    ensures !Disconnect(Connect(c, address, endpoints).1).1.connected
    ensures Disconnect(Connect(c, address, endpoints).1).1.host == Some(endpoints[address.value])
  {
  }

  // ---------------------------------------------------------------------
  // Attribute reads
  // ---------------------------------------------------------------------

  /** The read request for a node: the listed attribute ids the node
      supports, in list order. */
  function ReadRequest(supported: set<A.AttrId>): (req: seq<A.AttrId>)
    ensures forall a :: a in req <==> a in A.AttributeIds && a in supported
    ensures IsSubsequence(req, A.AttributeIds)
    ensures forall i, j :: 0 <= i < j < |req| ==> req[i] != req[j]
  {
    var req := Filter(A.AttributeIds, a => a in supported);
    A.AttributeIdsDistinct();
    SubsequenceOfDistinct(req, A.AttributeIds);
    req
  }

  /** The string a NodeClass value turns into: the enumeration name for a
      defined value, the decimal number otherwise. */
  function ClassLabel(n: int): (s: string)
    ensures forall c: NodeClass :: ClassValue(c) == n ==> s == ClassName(c)
    ensures (forall c: NodeClass :: ClassValue(c) != n) ==> s == Strings.IntToDecimal(n)
  {
    match ClassOfValue(n)
    case Some(c) =>
      assert forall d: NodeClass :: ClassValue(d) == n ==> d == c by {
        forall d: NodeClass | d != c
          ensures ClassValue(d) != n
        {
          ClassEncodingInjective(c, d);
        }
      }
      ClassName(c)
    case None => Strings.IntToDecimal(n)
  }

  /** The post-processing of one read result. A NodeClass value is cast to the
      enumeration and named; a DataType value is cast to a node id and the
      display name of that node is read; everything else passes through. */
  function Resolve(space: Space, a: A.AttrId, raw: Variant): (r: Result<Variant>)
    ensures r.Err? ==> IsServerError(r.error)
  {
    if a == A.NodeClass then
      match raw
      case Int(n) => Ok(Text(ClassLabel(n)))
      case _ => Err(InvalidCast(a))
    else if a == A.DataType then
      match raw
      case NodeRef(t) =>
        var typeNode :- Lookup(space, t);
        Ok(Text(typeNode.displayName))
      case _ => Err(InvalidCast(a))
    else Ok(raw)
  }

  /** The attribute record for result `i` of a request. */
  function Entry(a: A.AttrId, v: Variant): NodeAttribute {
    NodeAttribute(a, A.AttributeName(a), v)
  }

  /** Walk the results of a request front to back, pairing each with its
      request id and name; the first failing post-processing step aborts. */
  function ResolveAll(space: Space, n: ServerNode, req: seq<A.AttrId>): (r: Result<seq<NodeAttribute>>)
    ensures r.Ok? <==> forall i :: 0 <= i < |req| ==> Resolve(space, req[i], RawValue(n, req[i])).Ok?
    ensures r.Ok? ==> |r.value| == |req|
    ensures r.Ok? ==> forall i :: 0 <= i < |req| ==>
      r.value[i] == Entry(req[i], Resolve(space, req[i], RawValue(n, req[i])).value)
    ensures r.Err? ==> exists i :: (0 <= i < |req|
      && Resolve(space, req[i], RawValue(n, req[i])) == Err(r.error)
      && forall j :: 0 <= j < i ==> Resolve(space, req[j], RawValue(n, req[j])).Ok?)
    ensures r.Err? ==> IsServerError(r.error)
  {
    if |req| == 0 then Ok([])
    else
      match Resolve(space, req[0], RawValue(n, req[0]))
      case Err(e) => Err(e)
      case Ok(v) =>
        match ResolveAll(space, n, req[1..])
        case Err(e) =>
          ghost var k :| 0 <= k < |req[1..]|
            && Resolve(space, req[1..][k], RawValue(n, req[1..][k])) == Err(e)
            && forall j :: 0 <= j < k ==> Resolve(space, req[1..][j], RawValue(n, req[1..][j])).Ok?;
          assert Resolve(space, req[k + 1], RawValue(n, req[k + 1])) == Err(e);
          Err(e)
        case Ok(rest) => Ok([Entry(req[0], v)] + rest)
  }

  /** Read every supported listed attribute of the node `id` in one batch. */
  function ReadNodeAttributes(space: Space, id: NodeId): (r: Result<seq<NodeAttribute>>)
    ensures id !in space.nodes ==> r == Err(UnknownNode(id))
    ensures id in space.nodes ==> r == ResolveAll(space, space.nodes[id], ReadRequest(space.nodes[id].supported))
    ensures r.Err? ==> IsServerError(r.error)
  {
    var n :- Lookup(space, id);
    ResolveAll(space, n, ReadRequest(n.supported))
  }

  /** The attribute ids of a list of attribute records, in order. */
  function IdsOf(attrs: seq<NodeAttribute>): (ids: seq<A.AttrId>)
    ensures |ids| == |attrs|
  {
    seq(|attrs|, i requires 0 <= i < |attrs| => attrs[i].attributeId)
  }

  /** The read returns exactly the listed attributes the node supports, each
      once, in list order, none labelled "Unknown". */
  lemma ReadAttributesExactlySupported(space: Space, id: NodeId)
    requires ReadNodeAttributes(space, id).Ok?
    ensures id in space.nodes
    ensures IsSubsequence(IdsOf(ReadNodeAttributes(space, id).value), A.AttributeIds)
    ensures var attrs := ReadNodeAttributes(space, id).value;
      && (forall a :: (exists i :: 0 <= i < |attrs| && attrs[i].attributeId == a)
            <==> a in A.AttributeIds && a in space.nodes[id].supported)
      && (forall i, j :: 0 <= i < j < |attrs| ==> attrs[i].attributeId != attrs[j].attributeId)
      && (forall i :: 0 <= i < |attrs| ==>
            attrs[i].name == A.AttributeName(attrs[i].attributeId) && attrs[i].name != A.Unknown)
  {
    var attrs := ReadNodeAttributes(space, id).value;
    var req := ReadRequest(space.nodes[id].supported);
    assert IdsOf(attrs) == req;
    forall a | a in A.AttributeIds && a in space.nodes[id].supported
      ensures exists i :: 0 <= i < |attrs| && attrs[i].attributeId == a
    {
      var i :| 0 <= i < |req| && req[i] == a;
      assert attrs[i].attributeId == a;
    }
    forall i | 0 <= i < |attrs|
      ensures attrs[i].name != A.Unknown
    {
      assert req[i] in req;
      A.AttributeNameTotal(req[i]);
    }
  }

  /** A NodeClass attribute carrying the value of a class reads as the class's
      name. */
  lemma NodeClassNamed(space: Space, id: NodeId, i: nat, c: NodeClass)
    requires ReadNodeAttributes(space, id).Ok?
    requires i < |ReadNodeAttributes(space, id).value|
    requires ReadNodeAttributes(space, id).value[i].attributeId == A.NodeClass
    requires id in space.nodes && RawValue(space.nodes[id], A.NodeClass) == Int(ClassValue(c))
    ensures ReadNodeAttributes(space, id).value[i].value == Text(ClassName(c))
  {
    var req := ReadRequest(space.nodes[id].supported);
    assert req[i] == A.NodeClass;
    var d := ClassOfValue(ClassValue(c)).value;
    if d != c {
      ClassEncodingInjective(c, d);
    }
  }

  /** A DataType attribute referring to node `t` reads as `t`'s display name,
      never as the reference itself. */
  lemma DataTypeNamed(space: Space, id: NodeId, i: nat, t: NodeId)
    requires ReadNodeAttributes(space, id).Ok?
    requires i < |ReadNodeAttributes(space, id).value|
    requires ReadNodeAttributes(space, id).value[i].attributeId == A.DataType
    requires id in space.nodes && RawValue(space.nodes[id], A.DataType) == NodeRef(t)
    ensures t in space.nodes
    ensures ReadNodeAttributes(space, id).value[i].value == Text(space.nodes[t].displayName)
    ensures ReadNodeAttributes(space, id).value[i].value != NodeRef(t)
  {
    var req := ReadRequest(space.nodes[id].supported);
    assert req[i] == A.DataType;
    assert Resolve(space, req[i], NodeRef(t)).Ok?;
  }

  /** Every other attribute is reported with the value the server returned. */
  lemma OtherValuesUnchanged(space: Space, id: NodeId, i: nat)
    requires ReadNodeAttributes(space, id).Ok?
    requires i < |ReadNodeAttributes(space, id).value|
    requires ReadNodeAttributes(space, id).value[i].attributeId != A.NodeClass
    requires ReadNodeAttributes(space, id).value[i].attributeId != A.DataType
    ensures id in space.nodes
    ensures var attr := ReadNodeAttributes(space, id).value[i];
      attr.value == RawValue(space.nodes[id], attr.attributeId)
  {
    var req := ReadRequest(space.nodes[id].supported);
    assert req[i] == ReadNodeAttributes(space, id).value[i].attributeId;
  }

  /** A read fails only for an unknown node, a NodeClass or DataType value of
      the wrong type, or a DataType reference to an unknown node. */
  lemma ReadAttributesFailure(space: Space, id: NodeId)
    requires ReadNodeAttributes(space, id).Err?
    ensures id !in space.nodes
      || exists a :: a in ReadRequest(space.nodes[id].supported)
           && (a == A.NodeClass || a == A.DataType)
           && Resolve(space, a, RawValue(space.nodes[id], a)).Err?
  {
    if id in space.nodes {
      var n := space.nodes[id];
      var req := ReadRequest(n.supported);
      var i :| 0 <= i < |req| && Resolve(space, req[i], RawValue(n, req[i])).Err?;
      assert req[i] in req;
    }
  }

  /** Read a node: its own id, display name and class plus its attribute batch. */
  function ReadNode(space: Space, id: NodeId): (r: Result<Node>)
    ensures r.Ok? <==> id in space.nodes && ReadNodeAttributes(space, id).Ok?
    ensures r.Ok? ==>
      var n := space.nodes[id];
      r.value == Node(n.nodeId, n.displayName, n.nodeClass, ReadNodeAttributes(space, id).value)
    ensures r.Err? ==> IsServerError(r.error)
  {
    var n :- Lookup(space, id);
    var attrs :- ReadNodeAttributes(space, id);
    Ok(Node(n.nodeId, n.displayName, n.nodeClass, attrs))
  }

  /** In a well-formed space a node read by id reports that id. */
  lemma ReadNodeKeepsId(space: Space, id: NodeId)
    requires WellFormed(space)
    requires ReadNode(space, id).Ok?
    ensures ReadNode(space, id).value.nodeId == id
  {
  }

  // ---------------------------------------------------------------------
  // Browsing
  // ---------------------------------------------------------------------

  /** A node class as a bit of a browse class mask. */
  function ClassBit(c: NodeClass): bv32 {
    ClassValue(c) as bv32
  }

  /** The class mask of every browse: all nine classes or-ed together. */
  const BrowseClassMask: bv32 :=
    ClassBit(Variable) | ClassBit(Object) | ClassBit(Method) | ClassBit(VariableType)
    | ClassBit(DataType) | ClassBit(ReferenceType) | ClassBit(ObjectType)
    | ClassBit(Unspecified) | ClassBit(View)

  /** Whether a browse with class mask `mask` returns a target of class `c`
      (OPC UA Part 4, section 5.8.2: a zero mask returns every class, and the
      mask is ignored for a remote target whose class is unknown, which a
      reference reports as Unspecified). */
  predicate Admits(mask: bv32, c: NodeClass) {
    mask == 0 || c == Unspecified || ClassBit(c) & mask != 0
  }

  /** The mask filters out no class: every class bit is set, and the
      Unspecified class, which carries no bit, is never filtered. */
  lemma BrowseMaskAdmitsAll()
    ensures BrowseClassMask == 0xFF
    ensures forall c: NodeClass :: Admits(BrowseClassMask, c)
  {
  }

  /** The server side of a browse: the forward hierarchical references of the
      node whose targets pass the class mask, in server order. */
  function BrowseReferences(space: Space, id: NodeId, mask: bv32): (r: Result<seq<ReferenceDescription>>)
    ensures r.Ok? <==> id in space.nodes
    ensures r.Err? ==> r.error == UnknownNode(id)
    ensures r.Ok? ==>
      && IsSubsequence(r.value, space.nodes[id].references)
      && (forall d :: d in r.value <==> d in space.nodes[id].references && Admits(mask, d.nodeClass))
      && forall d :: multiset(r.value)[d] ==
           if Admits(mask, d.nodeClass) then multiset(space.nodes[id].references)[d] else 0
  {
    var n :- Lookup(space, id);
    var keep := (d: ReferenceDescription) => Admits(mask, d.nodeClass);
    FilterCounts(n.references, keep);
    Ok(Filter(n.references, keep))
  }

  /** Turn browse references into attribute-complete node records, in order;
      the first failing attribute read aborts. */
  function Materialize(space: Space, refs: seq<ReferenceDescription>): (r: Result<seq<Node>>)
    ensures r.Ok? <==> forall i :: 0 <= i < |refs| ==> ReadNodeAttributes(space, refs[i].nodeId).Ok?
    ensures r.Ok? ==> |r.value| == |refs|
    ensures r.Ok? ==> forall i :: 0 <= i < |refs| ==>
      r.value[i] == Node(refs[i].nodeId, refs[i].displayName, refs[i].nodeClass,
                         ReadNodeAttributes(space, refs[i].nodeId).value)
    ensures r.Err? ==> IsServerError(r.error)
  {
    if |refs| == 0 then Ok([])
    else
      var d := refs[0];
      var attrs :- ReadNodeAttributes(space, d.nodeId);
      var rest :- Materialize(space, refs[1..]);
      Ok([Node(d.nodeId, d.displayName, d.nodeClass, attrs)] + rest)
  }

  /** The children of node `id`, each with its full attribute batch. */
  function Browse(space: Space, id: NodeId): (r: Result<seq<Node>>)
    ensures id !in space.nodes ==> r == Err(UnknownNode(id))
    ensures id in space.nodes ==>
      r == Materialize(space, Filter(space.nodes[id].references,
                                     (d: ReferenceDescription) => Admits(BrowseClassMask, d.nodeClass)))
    ensures r.Err? ==> IsServerError(r.error)
  {
    var refs :- BrowseReferences(space, id, BrowseClassMask);
    Materialize(space, refs)
  }

  /** Browsing yields one record per reference, in server order, carrying the
      reference's id, name and class and the target's attribute batch. */
  lemma BrowseOnePerReference(space: Space, id: NodeId)
    requires id in space.nodes
    ensures Browse(space, id).Ok? ==>
      var refs := space.nodes[id].references; var nodes := Browse(space, id).value;
      && |nodes| == |refs|
      && forall i :: 0 <= i < |refs| ==>
           && nodes[i].nodeId == refs[i].nodeId
           && nodes[i].name == refs[i].displayName
           && nodes[i].nodeClass == refs[i].nodeClass
           && nodes[i].attributes == ReadNodeAttributes(space, refs[i].nodeId).value
  {
    var refs := space.nodes[id].references;
    var keep := (d: ReferenceDescription) => Admits(BrowseClassMask, d.nodeClass);
    BrowseMaskAdmitsAll();
    FilterKeepsAll(refs, keep);
    assert Browse(space, id) == Materialize(space, refs);
  }

  /** A browse fails exactly when the node is unknown or the attribute read of
      one of the admitted targets fails. */
  lemma BrowseFailure(space: Space, id: NodeId)
    requires id in space.nodes
    ensures var refs := space.nodes[id].references;
      Browse(space, id).Err? <==>
        exists i :: 0 <= i < |refs| && ReadNodeAttributes(space, refs[i].nodeId).Err?
  {
    var refs := space.nodes[id].references;
    var keep := (d: ReferenceDescription) => Admits(BrowseClassMask, d.nodeClass);
    BrowseMaskAdmitsAll();
    FilterKeepsAll(refs, keep);
    assert Browse(space, id) == Materialize(space, refs);
  }

  /** A node without children browses to an empty list, not an error. */
  lemma BrowseLeaf(space: Space, id: NodeId)
    requires id in space.nodes && space.nodes[id].references == []
    ensures Browse(space, id) == Ok([])
  {
  }
}

=== FILE: nodes.dfy ===
/** The records the client exchanges (node and attribute) and the abstract
    server address space that read and browse requests are answered from.
 */
module NodeModel {
  import opened Outcomes
  import AttributeTable

  /** A node id in its string form, e.g. "i=84" or "ns=2;s=Boiler". */
  type NodeId = string

  /** The node classes of OPC UA Part 3, section 8.29. */
  datatype NodeClass =
    | Unspecified | Object | Variable | Method | ObjectType
    | VariableType | ReferenceType | DataType | View

  /** The enumeration value of a node class; each class is one bit of a mask. */
  function ClassValue(c: NodeClass): nat {
    match c
    case Unspecified => 0
    case Object => 1
    case Variable => 2
    case Method => 4
    case ObjectType => 8
    case VariableType => 16
    case ReferenceType => 32
    case DataType => 64
    case View => 128
  }

  /** The symbolic name of a node class, as the enumeration spells it. */
  function ClassName(c: NodeClass): string {
    match c
    case Unspecified => "Unspecified"
    case Object => "Object"
    case Variable => "Variable"
    case Method => "Method"
    case ObjectType => "ObjectType"
    case VariableType => "VariableType"
    case ReferenceType => "ReferenceType"
    case DataType => "DataType"
    case View => "View"
  }

  /** The node class an enumeration value denotes, if any. */
  function ClassOfValue(n: int): (r: Option<NodeClass>)
    ensures r.Some? ==> ClassValue(r.value) == n
    ensures r.None? ==> forall c: NodeClass :: ClassValue(c) != n
  {
    if n == 0 then Some(Unspecified)
    else if n == 1 then Some(Object)
    else if n == 2 then Some(Variable)
    else if n == 4 then Some(Method)
    else if n == 8 then Some(ObjectType)
    else if n == 16 then Some(VariableType)
    else if n == 32 then Some(ReferenceType)
    else if n == 64 then Some(DataType)
    else if n == 128 then Some(View)
    else None
  }

  /** Different classes have different values and different names. */
  lemma ClassEncodingInjective(c: NodeClass, d: NodeClass)
    requires c != d
    ensures ClassValue(c) != ClassValue(d)
    ensures ClassName(c) != ClassName(d)
  {
  }

  /** An attribute value as it arrives from the server: a dynamically typed
      payload that may be null, a scalar, an array or a structure. */
  datatype Variant =
    | Null
    | Int(i: int)                 // an integer scalar
    | Text(s: string)             // a string or localized text
    | NodeRef(target: NodeId)     // a NodeId scalar
    | Array(items: seq<Variant>)  // a one-dimensional array
    | Extension(body: Variant)    // an ExtensionObject wrapping a structure
    | Opaque(rendering: string)   // any other scalar, known only by its string form

  /** One attribute of a node as the client reports it. */
  datatype NodeAttribute = NodeAttribute(attributeId: AttributeTable.AttrId, name: string, value: Variant)

  /** A node as the client reports it: identity, label, class and the batch of
      attributes read with it. */
  datatype Node = Node(nodeId: NodeId, name: string, nodeClass: NodeClass, attributes: seq<NodeAttribute>) {
    /** A node prints as its display name (the breadcrumb prompt relies on this). */
    function ToString(): string {
      name
    }
  }

  /** One reference returned by a browse: the target's id, display name and class. */
  datatype ReferenceDescription = ReferenceDescription(nodeId: NodeId, displayName: string, nodeClass: NodeClass)

  /** What the server knows about one node. `supported` is the set of attribute
      ids the node's class carries, `values` the current value of each
      attribute (a missing entry reads as null), `references` the targets of
      its forward hierarchical references in server order. */
  datatype ServerNode = ServerNode(
    nodeId: NodeId,
    displayName: string,
    nodeClass: NodeClass,
    supported: set<AttributeTable.AttrId>,
    values: map<AttributeTable.AttrId, Variant>,
    references: seq<ReferenceDescription>)

  /** The server's address space at the moment of a call: every node id the
      server accepts, with what it knows about the node. */
  datatype Space = Space(nodes: map<NodeId, ServerNode>)

  /** A node read by id; an id the server does not know is rejected. */
  function Lookup(space: Space, id: NodeId): (r: Result<ServerNode>)
    ensures r.Ok? <==> id in space.nodes
    ensures r.Ok? ==> r.value == space.nodes[id]
    ensures r.Err? ==> r.error == UnknownNode(id)
  {
    if id in space.nodes then Ok(space.nodes[id]) else Err(UnknownNode(id))
  }

  /** The value the server returns for one attribute of a node. */
  function RawValue(n: ServerNode, a: AttributeTable.AttrId): Variant {
    if a in n.values then n.values[a] else Null
  }

  /** Each node reports the id it is looked up by as its own id. */
  ghost predicate WellFormed(space: Space) {
    forall id :: id in space.nodes ==> space.nodes[id].nodeId == id
  }
}

=== FILE: outcomes.dfy ===
/** Failure-carrying datatypes shared by every layer of the client model.

    The client signals failure with exceptions. In the model an operation that
    can throw returns a `Result` (or an `Outcome` when it yields no value), and
    `Error` names which exception the client would raise.
 */
module Outcomes {

  datatype Option<+T> = None | Some(value: T)

  /** The exceptional conditions the client can run into. */
  datatype Error =
    | ConnectionFailed            // endpoint selection or session creation threw
    | NoSession                   // a call through a session reference that was never set
    | UnknownNode(nodeId: string) // the server rejected a node id in a read or browse
    | InvalidCast(attributeId: nat) // a NodeClass or DataType value of an unexpected type
    | NoSelectedNode              // a refresh dereferenced an unset selected node
    | NoBrowser                   // a navigation command reached an unset browser
    | EmptySequence               // the maximum of an empty attribute list was taken
    | EndOfInput                  // the console returned no line

  /** The errors a server call can raise: a rejected node id, or a value the
      client could not cast. */
  predicate IsServerError(e: Error) {
    e.UnknownNode? || e.InvalidCast?
  }

  /** A value or the error that prevented computing it. */
  datatype Result<+T> = Ok(value: T) | Err(error: Error) {

    predicate IsFailure() {
      Err?
    }

    function PropagateFailure<U>(): Result<U>
      requires Err?
    {
      Err(error)
    }

    function Extract(): T
      requires Ok?
    {
      value
    }
  }

  /** Success or failure of an operation that yields no value. */
  datatype Outcome = Pass | Fail(error: Error)
}

=== FILE: rendering.dfy ===
/** How the command loop turns attribute values into text: arrays as
    bracketed comma lists, extension objects as their body, everything else by
    its own string form; and the capped width of the value column.
 */
module Rendering {
  import opened Outcomes
  import opened NodeModel
  import Strings

  /** The string form of a value. Exactly the null-like values have none;
      an array's form is bracketed. */
  function Render(v: Variant): (s: Option<string>)
    ensures s.None? <==> IsNullLike(v)
    ensures v.Array? ==> s.Some? && |s.value| >= 2 && s.value[0] == '[' && s.value[|s.value| - 1] == ']'
    decreases v, 1
  {
    match v
    case Null => None
    case Int(i) => Some(Strings.IntToDecimal(i))
    case Text(s) => Some(s)
    case NodeRef(t) => Some(t)
    case Opaque(s) => Some(s)
    case Array(items) =>
      Some("[" + Strings.Join(RenderItems(items), ',') + "]")
    case Extension(body) => Render(body)
  }

  /** A missing string joins as the empty string. */
  function OrEmpty(s: Option<string>): string {
    match s
    case None => ""
    case Some(t) => t
  }

  /** The pieces an array's rendering is made of, one per element. */
  function RenderItems(items: seq<Variant>): (pieces: seq<string>)
    ensures |pieces| == |items|
    decreases Array(items), 0
  {
    seq(|items|, k requires 0 <= k < |items| => OrEmpty(Render(items[k])))
  }

  /** A value with no string form: null, possibly inside extension objects. */
  predicate IsNullLike(v: Variant) {
    match v
    case Null => true
    case Extension(body) => IsNullLike(body)
    case _ => false
  }

  /** `v` wrapped in `depth` extension objects. */
  function Wrap(v: Variant, depth: nat): Variant {
    if depth == 0 then v else Extension(Wrap(v, depth - 1))
  }

  /** Extension objects are transparent, however deeply nested. */
  lemma {:induction false} RenderUnwraps(v: Variant, depth: nat)
    ensures Render(Wrap(v, depth)) == Render(v)
  {
    if depth > 0 {
      RenderUnwraps(v, depth - 1);
    }
  }

  /** An array renders between brackets, and when no element's rendering
      contains a comma the element renderings can be read back by splitting
      the inside at the commas. */
  lemma ArrayRenderingRecoversItems(items: seq<Variant>)
    ensures Render(Array(items)).Some?
    ensures var s := Render(Array(items)).value;
      && |s| >= 2 && s[0] == '[' && s[|s| - 1] == ']'
      && (|items| > 0 && (forall k :: 0 <= k < |items| ==> ',' !in RenderItems(items)[k]) ==>
            Strings.Split(s[1..|s| - 1], ',') == RenderItems(items))
  {
    var pieces := RenderItems(items);
    var s := Render(Array(items)).value;
    assert s == "[" + Strings.Join(pieces, ',') + "]";
    assert s[1..|s| - 1] == Strings.Join(pieces, ',');
    if |items| > 0 && (forall k :: 0 <= k < |items| ==> ',' !in pieces[k]) {
      Strings.SplitJoin(pieces, ',');
    }
  }

  /** The length of a value's rendering; a null one counts as zero. */
  function RenderLength(v: Variant): nat {
    |OrEmpty(Render(v))|
  }

  /** The largest of a non-empty list of lengths. */
  function Max(xs: seq<nat>): (m: nat)
    requires |xs| > 0
    ensures forall k :: 0 <= k < |xs| ==> xs[k] <= m
    ensures exists k :: 0 <= k < |xs| && xs[k] == m
  {
    if |xs| == 1 then xs[0]
    else
      var rest := Max(xs[1..]);
      ghost var k :| 0 <= k < |xs[1..]| && xs[1..][k] == rest;
      assert xs[k + 1] == rest;
      if xs[0] >= rest then xs[0] else rest
  }

  /** The longest rendering among the attributes' values. */
  function MaxRenderLength(attrs: seq<NodeAttribute>): (m: nat)
    requires |attrs| > 0
    ensures forall k :: 0 <= k < |attrs| ==> RenderLength(attrs[k].value) <= m
    ensures exists k :: 0 <= k < |attrs| && RenderLength(attrs[k].value) == m
  {
    var lengths := seq(|attrs|, k requires 0 <= k < |attrs| => RenderLength(attrs[k].value));
    var m := Max(lengths);
    assert forall k :: 0 <= k < |attrs| ==> lengths[k] == RenderLength(attrs[k].value);
    ghost var k :| 0 <= k < |lengths| && lengths[k] == m;
    assert RenderLength(attrs[k].value) == m;
    m
  }

  /** The widest the value column of a node listing may be. */
  const MaxValueColumnWidth: nat := 50

  /** The width of the value column when a node's attributes are shown: the
      longest rendering plus a margin of 5, capped at 50. An empty attribute
      list has no maximum, which the client reports as an error. */
  function ValueColumnWidth(attrs: seq<NodeAttribute>): (r: Result<nat>)
    ensures r.Ok? <==> |attrs| > 0
    ensures r.Err? ==> r.error == EmptySequence
    ensures r.Ok? ==> 5 <= r.value <= MaxValueColumnWidth
    ensures r.Ok? ==> forall k :: 0 <= k < |attrs| ==>
      r.value == MaxValueColumnWidth || RenderLength(attrs[k].value) + 5 <= r.value
    ensures r.Ok? && r.value < MaxValueColumnWidth ==>
      exists k :: 0 <= k < |attrs| && RenderLength(attrs[k].value) + 5 == r.value
    ensures r.Ok? && r.value == MaxValueColumnWidth ==>
      exists k :: 0 <= k < |attrs| && RenderLength(attrs[k].value) + 5 >= MaxValueColumnWidth
  {
    if |attrs| == 0 then Err(EmptySequence)
    else
      var w := MaxRenderLength(attrs) + 5;
      if w > MaxValueColumnWidth then Ok(MaxValueColumnWidth) else Ok(w)
  }
}

=== FILE: seqs.dfy ===
/** Order-preserving filtering of sequences. */
module Seqs {

  /** `sub` can be obtained from `xs` by deleting elements, keeping the order
      of the rest. */
  ghost predicate IsSubsequence<T>(sub: seq<T>, xs: seq<T>)
    decreases |xs|
  {
    if |sub| == 0 then true
    else if |xs| == 0 then false
    else (sub[0] == xs[0] && IsSubsequence(sub[1..], xs[1..])) || IsSubsequence(sub, xs[1..])
  }

  /** The elements of `xs` that satisfy `keep`, in the order of `xs`. */
  function Filter<T(!new)>(xs: seq<T>, keep: T -> bool): (r: seq<T>)
    ensures forall x :: x in r <==> x in xs && keep(x)
    ensures IsSubsequence(r, xs)
    ensures |r| <= |xs|
  {
    if |xs| == 0 then []
    else if keep(xs[0]) then [xs[0]] + Filter(xs[1..], keep)
    else Filter(xs[1..], keep)
  }

  /** Filtering keeps every passing element as often as it occurs, and no
      other. */
  lemma {:induction false} FilterCounts<T(!new)>(xs: seq<T>, keep: T -> bool)
    ensures forall x :: multiset(Filter(xs, keep))[x] == if keep(x) then multiset(xs)[x] else 0
  {
    if |xs| > 0 {
      FilterCounts(xs[1..], keep);
      assert xs == [xs[0]] + xs[1..];
    }
  }

  /** Filtering keeps everything when every element passes. */
  lemma {:induction false} FilterKeepsAll<T(!new)>(xs: seq<T>, keep: T -> bool)
    requires forall i :: 0 <= i < |xs| ==> keep(xs[i])
    ensures Filter(xs, keep) == xs
  {
    if |xs| > 0 {
      FilterKeepsAll(xs[1..], keep);
    }
  }

  /** A subsequence of a list without repetitions has no repetitions. */
  lemma {:induction false} SubsequenceOfDistinct<T>(sub: seq<T>, xs: seq<T>)
    requires IsSubsequence(sub, xs)
    requires forall i, j :: 0 <= i < j < |xs| ==> xs[i] != xs[j]
    ensures forall i, j :: 0 <= i < j < |sub| ==> sub[i] != sub[j]
    decreases |xs|
  {
    if |sub| > 0 && |xs| > 0 {
      if sub[0] == xs[0] && IsSubsequence(sub[1..], xs[1..]) {
        SubsequenceOfDistinct(sub[1..], xs[1..]);
        SubsequenceElements(sub[1..], xs[1..]);
        forall j | 0 < j < |sub|
          ensures sub[0] != sub[j]
        {
          assert sub[j] == sub[1..][j - 1];
          assert sub[j] in xs[1..];
        }
      } else {
        SubsequenceOfDistinct(sub, xs[1..]);
      }
    }
  }

  /** Every element of a subsequence occurs in the sequence. */
  lemma {:induction false} SubsequenceElements<T>(sub: seq<T>, xs: seq<T>)
    requires IsSubsequence(sub, xs)
    ensures forall x :: x in sub ==> x in xs
    decreases |xs|
  {
    if |sub| > 0 && |xs| > 0 {
      if sub[0] == xs[0] && IsSubsequence(sub[1..], xs[1..]) {
        SubsequenceElements(sub[1..], xs[1..]);
        assert sub == [sub[0]] + sub[1..];
      } else {
        SubsequenceElements(sub, xs[1..]);
      }
    }
  }
}

=== FILE: strings.dfy ===
/** Decimal numerals and comma-separated lists, as the client's string
    conversions produce them. */
module Strings {

  function DigitChar(d: nat): (c: char)
    requires d < 10
    ensures '0' <= c <= '9'
  {
    '0' + d as char
  }

  predicate IsDigits(s: string) {
    forall i :: 0 <= i < |s| ==> '0' <= s[i] <= '9'
  }

  /** The decimal numeral of `n`, most significant digit first. */
  function NatToDecimal(n: nat): (s: string)
    ensures |s| > 0 && IsDigits(s)
    ensures n < 10 <==> |s| == 1
  {
    if n < 10 then [DigitChar(n)]
    else NatToDecimal(n / 10) + [DigitChar(n % 10)]
  }

  /** The integer that a digit string denotes. */
  function ParseDecimal(s: string): nat
    requires IsDigits(s)
  {
    if |s| == 0 then 0
    else 10 * ParseDecimal(s[..|s| - 1]) + (s[|s| - 1] - '0') as nat
  }

  /** Decimal rendering loses nothing: parsing it gives back the number. */
  lemma {:induction false} DecimalRoundTrip(n: nat)
    ensures ParseDecimal(NatToDecimal(n)) == n
  {
    var s := NatToDecimal(n);
    if n >= 10 {
      DecimalRoundTrip(n / 10);
      assert s[..|s| - 1] == NatToDecimal(n / 10);
    }
  }

  /** The decimal numeral of an integer, with a leading minus sign when negative. */
  function IntToDecimal(i: int): (s: string)
    ensures |s| > 0
    ensures i >= 0 ==> IsDigits(s) && ParseDecimal(s) == i
    ensures i < 0 ==> s[0] == '-' && IsDigits(s[1..]) && ParseDecimal(s[1..]) == -i
  {
    if i < 0 then
      DecimalRoundTrip(-i);
      assert ("-" + NatToDecimal(-i))[1..] == NatToDecimal(-i);
      "-" + NatToDecimal(-i)
    else
      DecimalRoundTrip(i);
      NatToDecimal(i)
  }

  /** The strings of `xs` separated by `sep`; empty for an empty list. */
  function Join(xs: seq<string>, sep: char): string {
    if |xs| == 0 then ""
    else if |xs| == 1 then xs[0]
    else xs[0] + [sep] + Join(xs[1..], sep)
  }

  /** `s` cut at every occurrence of `sep`; always at least one piece. */
  function Split(s: string, sep: char): (pieces: seq<string>)
    ensures |pieces| > 0
    ensures forall k :: 0 <= k < |pieces| ==> sep !in pieces[k]
  {
    if sep !in s then [s]
    else
      var i := FirstIndex(s, sep);
      [s[..i]] + Split(s[i + 1..], sep)
  }

  /** The position of the first `c` in `s`. */
  function FirstIndex(s: string, c: char): (i: nat)
    requires c in s
    ensures i < |s| && s[i] == c && c !in s[..i]
  {
    if s[0] == c then 0
    else
      var k := FirstIndex(s[1..], c);
      assert s[..k + 1] == [s[0]] + s[1..][..k];
      k + 1
  }

  /** Joining a non-empty list of separator-free strings can be undone by
      splitting at the separator. */
  lemma {:induction false} SplitJoin(xs: seq<string>, sep: char)
    requires |xs| > 0
    requires forall k :: 0 <= k < |xs| ==> sep !in xs[k]
    ensures Split(Join(xs, sep), sep) == xs
  {
    if |xs| > 1 {
      var s := Join(xs, sep);
      assert s == xs[0] + [sep] + Join(xs[1..], sep);
      FirstIndexAfter(xs[0], sep, Join(xs[1..], sep));
      var i := FirstIndex(s, sep);
      assert s[..i] == xs[0];
      assert s[i + 1..] == Join(xs[1..], sep);
      SplitJoin(xs[1..], sep);
    }
  }

  /** A separator placed right after a separator-free prefix is the first one. */
  lemma {:induction false} FirstIndexAfter(a: string, sep: char, b: string)
    requires sep !in a
    ensures sep in a + [sep] + b
    ensures FirstIndex(a + [sep] + b, sep) == |a|
  {
    var s := a + [sep] + b;
    assert s[|a|] == sep;
    if |a| > 0 {
      assert s[1..] == a[1..] + [sep] + b;
      FirstIndexAfter(a[1..], sep, b);
    }
  }
}
